=== FILE: README.md ===
# Embedding ingestion pipeline — a Dafny model

This project models the core of a pipeline that turns second-hand catalog items into
vector-store points. A BigQuery query selects the items that still need embedding. The
`main` loop buffers each row together with its downloaded image and a fresh point id.
Every 32 rows it encodes the images, builds points and ledger rows, and upserts the points
into Qdrant (first in bulk, then one point at a time if the bulk call raises). It then
inserts the ledger rows into a BigQuery table, and keeps two counters.

The model is split into modules:

- `Records`: the vocabulary every module shares.
  - row dictionaries, with Python truthiness of their values
  - `zip` truncation
  - ledger rows
  - the boolean result of a sink call
  - `KeptIndices`, the reference definition of which records are kept
- `Qdrant` (src/qdrant.py): `prepare`, `upload`, and how `create_payload_index` chooses a schema.
- `Pinecone` (src/pinecone.py): `prepare`, which also sets `is_available` on the caller's
  payload dicts, and `upload` with its guard against an empty list.
- `BigQuery` (src/bigquery.py): the guard of the ledger insert, and the text of the
  candidate query with its optional `ORDER BY RAND()` suffix.
- `Sharding`: the shard predicate `MOD(FARM_FINGERPRINT(...), total_shards) = shard_index`.
  BigQuery's `MOD` truncates toward zero, so the model writes it out explicitly.
- `CandidateQuery`: what the query returns.
  - The tables are in memory, with SQL NULL semantics: the three LEFT JOINs, and
    three-valued `NOT IN`.
  - The answer is a relation `QueryAnswer`, not a function. `ROW_NUMBER()` orders each
    partition by its own key, so which duplicate gets number 1 is up to the engine, and
    the order of the rows is unspecified or random.
- `Pipeline` (main.py): the loop as a step function over a state record, folded over the
  rows by `Run`. Each row arrives as a `RowEvent` that also carries the outside world's
  answers:
  - the download result
  - the encoder result
  - the Qdrant bulk and single-point outcomes
  - the BigQuery insert error list

The code behaves as follows, and the model keeps it:

- A record is kept when `payload.get("id")` is truthy. No image URL or other field is
  checked.
- When encoding raises, the loop `continue`s without clearing the buffers. The batch stays
  buffered, is encoded again together with the next 32 rows, and is counted in `n` twice.
- There is no deletion sweep and no transient/permanent classification of download failures.
  A download whose status is not 200 gives `None`, and the row is buffered anyway.
- The query has no `limit` and no reverse-chronological order. It does not specify which
  duplicate is kept.
- The trailing batch of fewer than 32 rows is never flushed.
- `n_success` is credited with the whole buffer length, before any filtering. It depends
  only on the BigQuery insert, never on what Qdrant answered.

## Model

| member | source | states |
|---|---|---|
| Records.KeptIndices | src/qdrant.py:11-12 | positions below the zip length whose payload id is truthy, strictly increasing, each such position present, and all positions kept exactly when every id is truthy |
| Qdrant.Prepare | src/qdrant.py:6-23 | one point and one ledger row per kept record, in input order; the point carries that record's id, embedding and unchanged payload; the row's item id is the payload's (truthy) id and its point id is the point's id; never more than any input list |
| Qdrant.Upload | src/qdrant.py:26-31 | the client is always called with the given points, and the wrapper returns True exactly when the upsert returns |
| Qdrant.CreatePayloadIndex | src/qdrant.py:54-78 | ValueError exactly for names other than women, category_type, url and price; BOOL for women, KEYWORD for category_type and url, FLOAT for price; the result is True exactly when the client call returns |
| Qdrant.AdvertisedFieldsAccepted | src/qdrant.py:59-66 | every field listed in QDRANT_PAYLOAD_FIELDS is accepted, and so is "url", which that list omits |
| Pinecone.MarkAvailable | src/pinecone.py:12 | the payload afterwards has exactly the keys it had plus is_available, is_available is True, and every other key keeps its value |
| Pinecone.Prepare | src/pinecone.py:5-19 | same selection and pairing as the Qdrant variant; every kept vector's metadata is the caller's dict after it is flagged available; the caller's list has exactly the kept payloads flagged, and the dropped ones and those beyond the zip are untouched |
| Pinecone.Upload | src/pinecone.py:22-30 | an empty list returns False without touching the index; otherwise the vectors are sent and the result is True exactly when the upsert returns |
| BigQuery.Upload | src/bigquery.py:29-39 | no rows gives False and no insert; otherwise the rows are sent and the result is True exactly when the returned error list is empty |
| BigQuery.ShuffleOnlyAppendsOrderBy | src/bigquery.py:69-70 | the shuffled query is the plain query followed by exactly " ORDER BY RAND()" |
| Sharding.TruncMod | src/bigquery.py:66 | MOD's result is smaller in magnitude than the divisor, takes the dividend's sign, and completes the truncating division |
| Sharding.DefaultShardKeepsAll | src/bigquery.py:45-46 | with the default total_shards = 1 and shard_index = 0 every fingerprint passes |
| Sharding.ShardsDisjoint | src/bigquery.py:66 | two different shard indices never both select one fingerprint |
| Sharding.CoveredIffNonNegativeRemainder | src/bigquery.py:66 | some index 0..N-1 selects a fingerprint exactly when its MOD is not negative; a non-negative fingerprint is in exactly that shard |
| Sharding.NegativeFingerprintInNoShard | src/bigquery.py:66 | with two shards, fingerprint -1 has MOD -1 and is selected by neither index 0 nor 1 |
| Sharding.NegativeRemainderUncovered | src/bigquery.py:66 | every negative fingerprint that is not a multiple of N is selected by no index 0..N-1 |
| Sharding.IntendedShardsPartition | src/bigquery.py:66 | with a non-negative remainder, every fingerprint lies in exactly one shard 0..N-1, and the result agrees with MOD on non-negative fingerprints |
| CandidateQuery.ImageUrls | src/bigquery.py:57 | the image join yields exactly the urls of the image rows whose vinted_id equals the item's, a NULL key matching nothing |
| CandidateQuery.CategoryTypes | src/bigquery.py:58 | the category join yields exactly the category_type of the category rows whose catalog_id equals the item's |
| CandidateQuery.WomenFlags | src/bigquery.py:59 | the catalog join yields exactly the women flag of the catalog rows whose id equals the item's catalog_id |
| CandidateQuery.ImageColumn | src/bigquery.py:52-57 | after LEFT JOIN padding, image_location takes exactly the url of a matching image row, or NULL when no image row matches |
| CandidateQuery.CategoryColumn | src/bigquery.py:53-58 | after LEFT JOIN padding, category_type takes exactly the value of a matching category row, or NULL when none matches |
| CandidateQuery.CatalogColumn | src/bigquery.py:54-59 | after LEFT JOIN padding, women takes exactly the flag of a matching catalog row, or NULL when none matches |
| CandidateQuery.WithImages | src/bigquery.py:57-59 | an item joins to one row per combination of its image, category and catalog values, so their number is the product of the three counts |
| CandidateQuery.Expand | src/bigquery.py:51-59 | an item yields at least one joined row, and a row belongs to it exactly when its three joined columns are values the LEFT JOINs give that item |
| CandidateQuery.Joined | src/bigquery.py:51-59 | a row is joined exactly when its item is in the item table and each joined column holds the value of a matching row or NULL when nothing matches; no item is lost |
| CandidateQuery.ImageJoinRows | src/bigquery.py:57 | every item and every image row matching it share a joined row carrying that row's url |
| CandidateQuery.CategoryJoinRows | src/bigquery.py:58 | every item and every category row matching it share a joined row carrying that row's category_type |
| CandidateQuery.CatalogJoinRows | src/bigquery.py:59 | every item and every catalog row matching it share a joined row carrying that row's women flag |
| CandidateQuery.NotIn | src/bigquery.py:61-62 | NOT IN is TRUE exactly when the subquery is empty or the value and the whole column are non-NULL and the value is absent; it is FALSE exactly when the value is non-NULL and present |
| CandidateQuery.Where | src/bigquery.py:60-62 | a row survives exactly when both NOT IN tests are TRUE |
| CandidateQuery.KeepFirst | src/bigquery.py:55 | one admissible row_num = 1 choice: rows of tab, at most one per vinted_id, and every partition represented |
| CandidateQuery.ShardFilter | src/bigquery.py:66 | a row survives exactly when its vinted_id is non-NULL and its fingerprint passes the MOD test; distinct keys stay distinct |
| CandidateQuery.AnswerExists | src/bigquery.py:48-70 | whenever the shard count is not zero, the query has an answer |
| CandidateQuery.AnswerOnePerVintedId | src/bigquery.py:55-65 | the answer holds at most one row per vinted_id, and no row with a NULL vinted_id |
| CandidateQuery.AnswerRowsAreEligible | src/bigquery.py:56-66 | every returned row joins an item whose id is absent from the ledger table and whose vinted_id is absent from the sold table, and it passes the shard test |
| CandidateQuery.NullInLedgerEmptiesAnswer | src/bigquery.py:61 | one NULL item_id in the ledger table makes the query return nothing |
| CandidateQuery.ShardAnswersDisjoint | src/bigquery.py:66 | for one shard count, the answers for two shard indices share no vinted_id, whichever duplicates each run kept |
| CandidateQuery.DefaultsKeepEveryPartition | src/bigquery.py:45-66 | with the default shard arguments, every tab row with a non-NULL vinted_id is represented in the answer |
| CandidateQuery.EligibleItemReturned | src/bigquery.py:56-65 | with the defaults, an item with non-NULL ids that is absent from NULL-free ledger and sold tables is returned, whether or not it has image, category or catalog matches |
| Pipeline.Buffer | main.py:28-34 | the row, its download result and its point id are appended to the three buffers, whatever the download gave; nothing else changes |
| Pipeline.FallbackFirst | main.py:60-66 | the fallback keeps exactly the points whose single upsert returned, in order, each with its own ledger row (valid_rows) |
| Pipeline.Flush | main.py:37-76 | n grows by the buffer length before encoding; an encode failure changes nothing else; otherwise the buffers are emptied, the bulk upsert stores all points or the fallback stores the ones that went in, and the ledger gains every prepared row and n_success the whole buffer length exactly when at least one row was prepared and the insert reports no errors |
| Pipeline.Step | main.py:27-76 | a row is buffered, and a flush happens exactly when the buffer length reaches a multiple of 32; the buffers stay aligned, the counters never decrease, and n_success grows by no more than n |
| Pipeline.RunKeepsInvariant | main.py:23-76 | over any sequence of rows the buffers stay equally long, both counters only grow, and n_success never exceeds n |
| Pipeline.RunConcat | main.py:27 | processing two runs of rows one after the other equals processing their concatenation |
| Pipeline.RunBelowThreshold | main.py:36 | rows that never bring the buffer to a multiple of 32 are only buffered: counters, store and ledger are unchanged |
| Pipeline.RunAllEncoded | main.py:36-76 | when every encode succeeds, n counts each completed batch of 32 once, and the buffer ends holding exactly the last total mod 32 point ids, which are never flushed |
| Pipeline.EncodeFailureRecounts | main.py:37-42 | with 64 rows whose first flush fails to encode and whose second succeeds, n grows by 96 and the buffer ends empty |
| Pipeline.FallbackOrphanRows | main.py:59-74 | if the bulk upsert and every single upsert raise but the insert succeeds, the store is unchanged, while the ledger gains every prepared row and n_success the whole batch |
| Pipeline.LedgerIgnoresVectorStore | main.py:50-74 | n_success and the ledger after a flush are the same whatever Qdrant answered |
| Pipeline.CreditExceedsRows | main.py:44-57 | when both bulk calls succeed but some buffered record yields no row (its id is not truthy, or it lies beyond the encoder's output), fewer rows than buffered records are written; n_success grows by the whole buffer when at least one row is written, and not at all when none is |
| Pipeline.FallbackIntended | main.py:59-74 | inserting valid_rows only: exactly the points whose single upsert returned are stored, in order; when the insert succeeds exactly their rows are written and the credit is their number, and when it reports errors nothing is written or credited; every written row belongs to a stored point |
| Pipeline.FallbackIntendedNoOrphans | main.py:59-74 | under the answers that leave orphan rows as written, the intended fallback writes no rows and credits nothing |

## Left out

- I/O and setup are not modelled: the secrets file, client construction (`init_client`,
  `QdrantClient(...)`), the encoder object, and `client.query(...).result()`. The query's
  text and its result are modelled; its execution is not.
- The tqdm progress bar and the float success rate `n_success / n` are left out, because
  they only print.
- `update_availability` (src/qdrant.py:34-51) is left out. It is a single `set_payload`
  call wrapped in try/except, and nothing in the loop calls it.
- The encoders, src/models.py and the image download are left out. Each is an answer
  carried by the `RowEvent`: the encoder is `Option<seq<Embedding>>` and the download is
  `Option<Image>`. If `requests.get` raises (a timeout, a connection error, or a
  NULL `image_location`, since main.py:30 then passes `url=None` and an item without an
  image row is selected, as `CandidateQuery.EligibleItemReturned` shows), or
  `Image.open(response.raw)` raises on a 200 response that is not an image
  (src/utils.py:30), the exception ends the whole run, and the model does not represent that.
- `uuid.uuid4()` is left out. Point ids are inputs of the events, and nothing assumes
  they are unique.
- Qdrant partial writes are left out. Each upsert is all-or-nothing.
- Python aliasing of payload dicts is left out, except for the Pinecone mutation, which
  is returned as the caller's updated list.
- A single-upsert answer missing from the event is treated as an upsert that raised.
- An exception raised by `insert_rows_json` itself is left out. Only its returned error
  list is modelled.
- `print(e)` in `create_payload_index` and its `collection_name` argument are left out.
- The query's row order is left out. `ORDER BY RAND()` is modelled only as a suffix of the
  query text, and the answer admits any order.
- `FARM_FINGERPRINT(CAST(vinted_id AS STRING))` is a parameter `fingerprint: int -> int`.
  It is not limited to the signed 64-bit range.
- `total_shards = 0` is modelled as a query failure for every set of tables, which
  over-approximates. BigQuery raises division by zero only when it evaluates `MOD(x, 0)` on a
  row with a non-NULL `vinted_id`. When `tab` has no row, or only rows with a NULL
  `vinted_id` (`MOD(NULL, 0)` is NULL), the real query returns nothing and raises nothing.
- `SOLD_TABLE_ID`, `QDRANT_TABLE_ID` and `src.encoder` do not appear in src/enums.py or in
  the modules shown.
  - The sold table's name is a parameter of `BigQuery.BaseQuery`.
  - The query anti-joins the `pinecone` table, while main.py inserts into
    `QDRANT_TABLE_ID`. The model keeps the ledger the loop writes separate from the ledger
    column the query reads, and does not connect the two.
- CandidateQuery.Joined: the number of rows an item yields is stated as the product of the
  lengths of its three padded match lists (`CandidateQuery.WithImages`), but the length of
  each list is not tied to the number of matching table rows. Only which values occur is
  stated, so duplicate matching rows are not counted.
- The corrected fallback is not wired into the loop. `Pipeline.Flush` models the fallback
  as written, and the corrected `Pipeline.FallbackIntended` stands beside it.

## Findings

| source | as written | input that shows it | evidently intended | confidence | as-written member | corrected member |
|---|---|---|---|---|---|---|
| src/bigquery.py:66 | `MOD(FARM_FINGERPRINT(...), total_shards) = shard_index`, where FARM_FINGERPRINT is signed and BigQuery's MOD truncates, so negative fingerprints give negative remainders | total_shards = 2 and a vinted_id whose fingerprint is -1: MOD gives -1, so neither shard 0 nor shard 1 returns the item | the shards 0..N-1 partition the items, each item in exactly one shard | high; not executed | Sharding.NegativeRemainderUncovered | Sharding.IntendedShardsPartition |
| main.py:68-74 | after the point-by-point fallback collects `valid_rows`, the insert is still given `rows` (every prepared row), and `n_success` is credited with the whole batch | the bulk upsert raises, every single upsert raises, and insert_rows_json returns no errors: the ledger gains rows for points that are not in the vector store, and if `QDRANT_TABLE_ID` is the table the query anti-joins, those items are not selected again | insert `valid_rows` only, and credit only what was written | high; not executed | Pipeline.FallbackOrphanRows | Pipeline.FallbackIntended |

=== FILE: bigquery.dfy ===
/** The BigQuery side of the pipeline (src/bigquery.py): the ledger-insert
    wrapper and the text of the candidate query. What the query selects is
    modelled in module CandidateQuery. */
module BigQuery {
  import opened Records

  const ProjectId := "carlia"
  const DatasetId := "vinted"
  const ItemTable := "item"
  const ImageTable := "image"
  const CategoryTable := "category"
  const CatalogTable := "catalog"
  /** The ledger table the query anti-joins against. */
  const LedgerTable := "pinecone"

  /** `upload(client, dataset_id, table_id, rows)`: no rows means False and no
      insert; otherwise True exactly when `insert_rows_json` reports no errors.
      `insertErrors` is the error list the client returns. */
  function Upload(rows: seq<LedgerRow>, insertErrors: seq<string>): (r: SinkCall<LedgerRow>)
    ensures |rows| == 0 ==> r == SinkCall(false, None)
    ensures |rows| > 0 ==> r.sent == Some(rows)
    ensures r.ok <==> |rows| > 0 && |insertErrors| == 0
  {
    if |rows| == 0 then SinkCall(false, None)
    else SinkCall(|insertErrors| == 0, Some(rows))
  }

  /** Python `str(n)` of an integer. */
  function Decimal(n: int): (s: string)
    ensures |s| > 0
    decreases if n < 0 then 1 - n else n
  {
    if n < 0 then "-" + Decimal(-n)
    else if n < 10 then [Digit(n)]
    else Decimal(n / 10) + [Digit(n % 10)]
  }

  function Digit(d: int): char
    requires 0 <= d < 10
  {
    "0123456789"[d]
  }

  function Table(dataset: string, table: string): string {
    "`" + ProjectId + "." + dataset + "." + table + "`"
  }

  /** The f-string of `_query_items_to_embed` before the optional ordering.
      `soldTable` stands for SOLD_TABLE_ID, which the enums module does not define. */
  function BaseQuery(dataset: string, soldTable: string, shardIndex: int, totalShards: int): string {
    "\n    WITH tab AS (\n    SELECT \n    item.*, \n    image.url AS image_location, \n"
    + "    category.category_type AS category_type,\n    catalog.women AS women,\n"
    + "    ROW_NUMBER() OVER (PARTITION BY item.vinted_id ORDER BY item.vinted_id DESC) AS row_num\n"
    + "    FROM " + Table(dataset, ItemTable) + " item\n"
    + "    LEFT JOIN " + Table(dataset, ImageTable) + " image USING (vinted_id)\n"
    + "    LEFT JOIN " + Table(dataset, CategoryTable) + " category USING (catalog_id)\n"
    + "    LEFT JOIN " + Table(dataset, CatalogTable) + " catalog ON item.catalog_id = catalog.id\n"
    + "    WHERE \n"
    + "    item.id NOT IN (SELECT item_id FROM " + Table(dataset, LedgerTable) + ")\n"
    + "    AND item.vinted_id NOT IN (SELECT vinted_id FROM " + Table(dataset, soldTable) + ")\n"
    + "    )\n    SELECT * FROM tab \n    WHERE row_num = 1\n"
    + "    AND MOD(FARM_FINGERPRINT(CAST(vinted_id AS STRING)), " + Decimal(totalShards)
    + ") = " + Decimal(shardIndex) + "\n    "
  }

  const OrderByRand := " ORDER BY RAND()"

  /** `_query_items_to_embed(dataset_id, shuffle, shard_index, total_shards)`. */
  function QueryText(dataset: string, soldTable: string, shuffle: bool, shardIndex: int, totalShards: int): string {
    BaseQuery(dataset, soldTable, shardIndex, totalShards) + (if shuffle then OrderByRand else "")
  }

  /** Shuffling changes nothing in the query but a trailing " ORDER BY RAND()":
      the shuffled text is the unshuffled text followed by exactly that suffix. */
  lemma ShuffleOnlyAppendsOrderBy(dataset: string, soldTable: string, shardIndex: int, totalShards: int)
    ensures var plain := QueryText(dataset, soldTable, false, shardIndex, totalShards);
            var shuffled := QueryText(dataset, soldTable, true, shardIndex, totalShards);
            && |shuffled| == |plain| + 16
            && shuffled[..|plain|] == plain
            && shuffled[|plain|..] == " ORDER BY RAND()"
  {
    var plain := QueryText(dataset, soldTable, false, shardIndex, totalShards);
    assert plain == BaseQuery(dataset, soldTable, shardIndex, totalShards) + "";
  }
}

=== FILE: candidate_query.dfy ===
/** What the candidate query of `_query_items_to_embed` selects, evaluated
    over in-memory tables with SQL's NULL semantics. The query is not a
    function of the tables: ROW_NUMBER orders each partition by its own key,
    so which duplicate gets number 1 is up to the engine, and the rows come
    back in no particular order (or in a random one when shuffled). It is
    therefore modelled as a relation `QueryAnswer` between the tables, the
    rows the engine numbered 1, and the rows returned. */
module CandidateQuery {
  import opened Records
  import Sharding

  /** A row of the item table: the columns the query uses plus the rest of `item.*`. */
  datatype ItemRow = ItemRow(id: Option<int>, vintedId: Option<int>, catalogId: Option<int>, columns: Payload)
  datatype ImageRow = ImageRow(vintedId: Option<int>, url: Option<string>)
  datatype CategoryRow = CategoryRow(catalogId: Option<int>, categoryType: Option<string>)
  datatype CatalogRow = CatalogRow(id: Option<int>, women: Option<bool>)

  /** The tables the query reads. `ledger` is the `item_id` column of the ledger
      table and `sold` the `vinted_id` column of the sold table. */
  datatype Tables = Tables(
    items: seq<ItemRow>,
    images: seq<ImageRow>,
    categories: seq<CategoryRow>,
    catalogs: seq<CatalogRow>,
    ledger: seq<Option<int>>,
    sold: seq<Option<int>>)

  /** A row of the `tab` common table expression (without `row_num`). */
  datatype Candidate = Candidate(item: ItemRow, imageLocation: Option<string>, categoryType: Option<string>, women: Option<bool>)

  /** The partition key of the window function. */
  function Key(c: Candidate): Option<int> {
    c.item.vintedId
  }

  /** SQL `a = b` as a join condition: NULL matches nothing. */
  predicate SqlEq(a: Option<int>, b: Option<int>) {
    a.Some? && b.Some? && a.value == b.value
  }

  // ---------------------------------------------------------------------------
  // The three LEFT JOINs

  /** `u` is a value the image join can give item `it`: the url of an image row
      whose `vinted_id` equals the item's, or NULL padding when no row matches. */
  predicate ImageJoins(it: ItemRow, u: Option<string>, images: seq<ImageRow>) {
    || (exists im :: im in images && SqlEq(im.vintedId, it.vintedId) && im.url == u)
    || (u == None && forall im :: im in images ==> !SqlEq(im.vintedId, it.vintedId))
  }

  /** The same for the category join, on `catalog_id`. */
  predicate CategoryJoins(it: ItemRow, c: Option<string>, categories: seq<CategoryRow>) {
    || (exists cat :: cat in categories && SqlEq(cat.catalogId, it.catalogId) && cat.categoryType == c)
    || (c == None && forall cat :: cat in categories ==> !SqlEq(cat.catalogId, it.catalogId))
  }

  /** The same for the catalog join, on `item.catalog_id = catalog.id`. */
  predicate CatalogJoins(it: ItemRow, w: Option<bool>, catalogs: seq<CatalogRow>) {
    || (exists ca :: ca in catalogs && SqlEq(it.catalogId, ca.id) && ca.women == w)
    || (w == None && forall ca :: ca in catalogs ==> !SqlEq(it.catalogId, ca.id))
  }

  /** A joined row whose three joined columns are values the LEFT JOINs give its item. */
  predicate JoinsTables(x: Candidate, db: Tables) {
    && ImageJoins(x.item, x.imageLocation, db.images)
    && CategoryJoins(x.item, x.categoryType, db.categories)
    && CatalogJoins(x.item, x.women, db.catalogs)
  }

  /** The urls of the image rows matching `key`, one per matching row. */
  function ImageUrls(key: Option<int>, images: seq<ImageRow>): (r: seq<Option<string>>)
    ensures |r| <= |images|
    ensures forall u :: u in r <==> exists im :: im in images && SqlEq(im.vintedId, key) && im.url == u
    decreases |images|
  {
    if images == [] then []
    else
      var rest := ImageUrls(key, images[1..]);
      assert forall im :: im in images ==> im == images[0] || im in images[1..];
      (if SqlEq(images[0].vintedId, key) then [images[0].url] else []) + rest
  }

  function CategoryTypes(key: Option<int>, categories: seq<CategoryRow>): (r: seq<Option<string>>)
    ensures |r| <= |categories|
    ensures forall c :: c in r <==> exists cat :: cat in categories && SqlEq(cat.catalogId, key) && cat.categoryType == c
    decreases |categories|
  {
    if categories == [] then []
    else
      var rest := CategoryTypes(key, categories[1..]);
      assert forall cat :: cat in categories ==> cat == categories[0] || cat in categories[1..];
      (if SqlEq(categories[0].catalogId, key) then [categories[0].categoryType] else []) + rest
  }

  function WomenFlags(key: Option<int>, catalogs: seq<CatalogRow>): (r: seq<Option<bool>>)
    ensures |r| <= |catalogs|
    ensures forall w :: w in r <==> exists ca :: ca in catalogs && SqlEq(key, ca.id) && ca.women == w
    decreases |catalogs|
  {
    if catalogs == [] then []
    else
      var rest := WomenFlags(key, catalogs[1..]);
      assert forall ca :: ca in catalogs ==> ca == catalogs[0] || ca in catalogs[1..];
      (if SqlEq(key, catalogs[0].id) then [catalogs[0].women] else []) + rest
  }

  /** A LEFT JOIN pads an item without a match with one row of NULLs. */
  function OrNull<T>(matches: seq<Option<T>>): (r: seq<Option<T>>)
    ensures |r| > 0
    ensures matches != [] ==> r == matches
    ensures matches == [] ==> r == [None]
  {
    if matches == [] then [None] else matches
  }

  lemma ImageColumn(it: ItemRow, images: seq<ImageRow>)
    ensures forall u :: u in OrNull(ImageUrls(it.vintedId, images)) <==> ImageJoins(it, u, images)
  {
    if ImageUrls(it.vintedId, images) != [] {
      assert ImageUrls(it.vintedId, images)[0] in ImageUrls(it.vintedId, images);
    }
  }

  lemma CategoryColumn(it: ItemRow, categories: seq<CategoryRow>)
    ensures forall c :: c in OrNull(CategoryTypes(it.catalogId, categories)) <==> CategoryJoins(it, c, categories)
  {
    if CategoryTypes(it.catalogId, categories) != [] {
      assert CategoryTypes(it.catalogId, categories)[0] in CategoryTypes(it.catalogId, categories);
    }
  }

  lemma CatalogColumn(it: ItemRow, catalogs: seq<CatalogRow>)
    ensures forall w :: w in OrNull(WomenFlags(it.catalogId, catalogs)) <==> CatalogJoins(it, w, catalogs)
  {
    if WomenFlags(it.catalogId, catalogs) != [] {
      assert WomenFlags(it.catalogId, catalogs)[0] in WomenFlags(it.catalogId, catalogs);
    }
  }

  function WithWomen(it: ItemRow, u: Option<string>, c: Option<string>, ws: seq<Option<bool>>): (r: seq<Candidate>)
    ensures |r| == |ws|
    ensures forall j :: 0 <= j < |r| ==> r[j] == Candidate(it, u, c, ws[j])
  {
    seq(|ws|, j requires 0 <= j < |ws| => Candidate(it, u, c, ws[j]))
  }

  lemma WithWomenRows(it: ItemRow, u: Option<string>, c: Option<string>, ws: seq<Option<bool>>)
    ensures forall x :: x in WithWomen(it, u, c, ws) <==> x.item == it && x.imageLocation == u && x.categoryType == c && x.women in ws
  {
    var r := WithWomen(it, u, c, ws);
    forall x: Candidate | x.item == it && x.imageLocation == u && x.categoryType == c && x.women in ws
      ensures x in r
    {
      var j :| 0 <= j < |ws| && ws[j] == x.women;
      assert r[j] == x;
    }
  }

  /** The rows of one item and one image value: one per pair of category and catalog values. */
  function WithCategories(it: ItemRow, u: Option<string>, cs: seq<Option<string>>, ws: seq<Option<bool>>)
    : (r: seq<Candidate>)
    ensures |r| == |cs| * |ws|
    ensures forall x :: x in r <==> x.item == it && x.imageLocation == u && x.categoryType in cs && x.women in ws
    decreases |cs|
  {
    if cs == [] then []
    else
      var head := WithWomen(it, u, cs[0], ws);
      var rest := WithCategories(it, u, cs[1..], ws);
      WithWomenRows(it, u, cs[0], ws);
      assert forall c :: c in cs <==> c == cs[0] || c in cs[1..];
      assert |head + rest| == |ws| + (|cs| - 1) * |ws| == |cs| * |ws|;
      head + rest
  }

  /** The rows of one item: one per triple of image, category and catalog values. */
  function WithImages(it: ItemRow, us: seq<Option<string>>, cs: seq<Option<string>>, ws: seq<Option<bool>>)
    : (r: seq<Candidate>)
    ensures |r| == |us| * (|cs| * |ws|)
    ensures forall x :: x in r <==> x.item == it && x.imageLocation in us && x.categoryType in cs && x.women in ws
    decreases |us|
  {
    if us == [] then []
    else
      var head := WithCategories(it, us[0], cs, ws);
      var rest := WithImages(it, us[1..], cs, ws);
      assert forall u :: u in us <==> u == us[0] || u in us[1..];
      assert |head + rest| == |cs| * |ws| + (|us| - 1) * (|cs| * |ws|) == |us| * (|cs| * |ws|);
      head + rest
  }

  /** The joined rows of one item: at least one, since every join is a LEFT JOIN,
      and exactly the rows pairing the item with values its three joins give. */
  function Expand(it: ItemRow, db: Tables): (r: seq<Candidate>)
    ensures |r| > 0
    ensures forall x :: x in r ==> x.item == it
    ensures forall x :: x in r <==> x.item == it && JoinsTables(x, db)
  {
    var us := OrNull(ImageUrls(it.vintedId, db.images));
    var cs := OrNull(CategoryTypes(it.catalogId, db.categories));
    var ws := OrNull(WomenFlags(it.catalogId, db.catalogs));
    ImageColumn(it, db.images);
    CategoryColumn(it, db.categories);
    CatalogColumn(it, db.catalogs);
    assert |cs| * |ws| > 0;
    WithImages(it, us, cs, ws)
  }

  /** `item LEFT JOIN image ... LEFT JOIN category ... LEFT JOIN catalog ...`:
      every joined row comes from an item, carries values the three joins give
      that item, and every such combination is a joined row; no item is lost. */
  function Joined(items: seq<ItemRow>, db: Tables): (r: seq<Candidate>)
    ensures forall x :: x in r ==> x.item in items
    ensures forall it :: it in items ==> exists x :: x in r && x.item == it
    ensures forall x :: x in r <==> x.item in items && JoinsTables(x, db)
    decreases |items|
  {
    if items == [] then []
    else
      var head := Expand(items[0], db);
      var rest := Joined(items[1..], db);
      assert forall it :: it in items <==> it == items[0] || it in items[1..];
      assert forall it :: it in items ==> exists x :: x in head + rest && x.item == it by {
        forall it | it in items
          ensures exists x :: x in head + rest && x.item == it
        {
          if it == items[0] {
            assert head[0] in head + rest;
          } else {
            assert it in items[1..];
            var x :| x in rest && x.item == it;
            assert x in head + rest;
          }
        }
      }
      head + rest
  }

  /** Every item and every image row matching it share a joined row carrying that
      row's url; an item no image row matches has NULL as its image location. */
  lemma ImageJoinRows(db: Tables, it: ItemRow, im: ImageRow)
    requires it in db.items && im in db.images && SqlEq(im.vintedId, it.vintedId)
    ensures exists x :: x in Joined(db.items, db) && x.item == it && x.imageLocation == im.url
  {
    var c := OrNull(CategoryTypes(it.catalogId, db.categories))[0];
    var w := OrNull(WomenFlags(it.catalogId, db.catalogs))[0];
    CategoryColumn(it, db.categories);
    CatalogColumn(it, db.catalogs);
    var x := Candidate(it, im.url, c, w);
    assert JoinsTables(x, db);
    assert x in Joined(db.items, db);
  }

  /** Every item and every category row matching its `catalog_id` share a joined
      row carrying that row's `category_type`. */
  lemma CategoryJoinRows(db: Tables, it: ItemRow, cat: CategoryRow)
    requires it in db.items && cat in db.categories && SqlEq(cat.catalogId, it.catalogId)
    ensures exists x :: x in Joined(db.items, db) && x.item == it && x.categoryType == cat.categoryType
  {
    var u := OrNull(ImageUrls(it.vintedId, db.images))[0];
    var w := OrNull(WomenFlags(it.catalogId, db.catalogs))[0];
    ImageColumn(it, db.images);
    CatalogColumn(it, db.catalogs);
    var x := Candidate(it, u, cat.categoryType, w);
    assert JoinsTables(x, db);
    assert x in Joined(db.items, db);
  }

  /** Every item and every catalog row whose `id` equals its `catalog_id` share a
      joined row carrying that row's `women` flag. */
  lemma CatalogJoinRows(db: Tables, it: ItemRow, ca: CatalogRow)
    requires it in db.items && ca in db.catalogs && SqlEq(it.catalogId, ca.id)
    ensures exists x :: x in Joined(db.items, db) && x.item == it && x.women == ca.women
  {
    var u := OrNull(ImageUrls(it.vintedId, db.images))[0];
    var c := OrNull(CategoryTypes(it.catalogId, db.categories))[0];
    ImageColumn(it, db.images);
    CategoryColumn(it, db.categories);
    var x := Candidate(it, u, c, ca.women);
    assert JoinsTables(x, db);
    assert x in Joined(db.items, db);
  }

  // ---------------------------------------------------------------------------
  // The WHERE clause: two NOT IN subqueries under three-valued logic

  datatype Truth = IsTrue | IsFalse | IsUnknown

  /** SQL `x NOT IN (SELECT col FROM t)`: TRUE on an empty subquery; otherwise a
      NULL on either side can only make it UNKNOWN, never TRUE. */
  function NotIn(x: Option<int>, column: seq<Option<int>>): (t: Truth)
    ensures t == IsTrue <==> |column| == 0 || (x.Some? && x !in column && None !in column)
    ensures t == IsFalse <==> x.Some? && x in column
  {
    if |column| == 0 then IsTrue
    else if x.None? then IsUnknown
    else if x in column then IsFalse
    else if None in column then IsUnknown
    else IsTrue
  }

  /** SQL AND. */
  function And(a: Truth, b: Truth): Truth {
    if a == IsFalse || b == IsFalse then IsFalse
    else if a == IsUnknown || b == IsUnknown then IsUnknown
    else IsTrue
  }

  predicate PassesWhere(c: Candidate, db: Tables) {
    And(NotIn(c.item.id, db.ledger), NotIn(c.item.vintedId, db.sold)) == IsTrue
  }

  /** WHERE keeps a row only when its condition is TRUE. */
  function Where(rows: seq<Candidate>, db: Tables): (r: seq<Candidate>)
    ensures forall x :: x in r <==> x in rows && PassesWhere(x, db)
    decreases |rows|
  {
    if rows == [] then []
    else (if PassesWhere(rows[0], db) then [rows[0]] else []) + Where(rows[1..], db)
  }

  /** The rows of `tab` (before `row_num = 1`). */
  function Tab(db: Tables): seq<Candidate> {
    Where(Joined(db.items, db), db)
  }

  // ---------------------------------------------------------------------------
  // ROW_NUMBER() = 1 and the shard predicate

  predicate DistinctKeys(rows: seq<Candidate>) {
    forall i, j :: 0 <= i < j < |rows| ==> Key(rows[i]) != Key(rows[j])
  }

  /** Every row of `r` is a row of `rows` whose key is not in `excluded`. */
  predicate DrawnFrom(r: seq<Candidate>, rows: seq<Candidate>, excluded: set<Option<int>>) {
    forall j :: 0 <= j < |r| ==> r[j] in rows && Key(r[j]) !in excluded
  }

  /** Every key of `rows` outside `excluded` is the key of some row of `r`. */
  predicate Covers(r: seq<Candidate>, rows: seq<Candidate>, excluded: set<Option<int>>) {
    forall c :: c in rows && Key(c) !in excluded ==> exists j :: 0 <= j < |r| && Key(r[j]) == Key(c)
  }

  /** `chosen` is a possible set of rows numbered 1: rows of `tab`, one for each
      partition of `tab` (NULL keys form one partition), and no more. */
  predicate RowNumberOne(tab: seq<Candidate>, chosen: seq<Candidate>) {
    DrawnFrom(chosen, tab, {}) && DistinctKeys(chosen) && Covers(chosen, tab, {})
  }

  /** One admissible numbering: the first row of each partition in `rows` order,
      skipping the keys already `seen`. */
  function KeepFirst(rows: seq<Candidate>, seen: set<Option<int>>): (r: seq<Candidate>)
    ensures DrawnFrom(r, rows, seen)
    ensures DistinctKeys(r)
    ensures Covers(r, rows, seen)
    decreases |rows|
  {
    if rows == [] then []
    else if Key(rows[0]) in seen then
      var rest := KeepFirst(rows[1..], seen);
      SkipSeen(rows, seen, rest);
      rest
    else
      var rest := KeepFirst(rows[1..], seen + {Key(rows[0])});
      KeepFresh(rows, seen, rest);
      [rows[0]] + rest
  }

  lemma SkipSeen(rows: seq<Candidate>, seen: set<Option<int>>, rest: seq<Candidate>)
    requires |rows| > 0 && Key(rows[0]) in seen
    requires DrawnFrom(rest, rows[1..], seen) && Covers(rest, rows[1..], seen)
    ensures DrawnFrom(rest, rows, seen) && Covers(rest, rows, seen)
  {
    forall c | c in rows && Key(c) !in seen
      ensures c in rows[1..]
    {
    }
  }

  lemma KeepFresh(rows: seq<Candidate>, seen: set<Option<int>>, rest: seq<Candidate>)
    requires |rows| > 0 && Key(rows[0]) !in seen
    requires DrawnFrom(rest, rows[1..], seen + {Key(rows[0])})
    requires DistinctKeys(rest)
    requires Covers(rest, rows[1..], seen + {Key(rows[0])})
    ensures DrawnFrom([rows[0]] + rest, rows, seen)
    ensures DistinctKeys([rows[0]] + rest)
    ensures Covers([rows[0]] + rest, rows, seen)
  {
    KeepFreshDistinct(rows[0], seen, rest);
    KeepFreshCovers(rows, seen, rest);
  }

  lemma KeepFreshDistinct(first: Candidate, seen: set<Option<int>>, rest: seq<Candidate>)
    requires forall j :: 0 <= j < |rest| ==> Key(rest[j]) !in seen + {Key(first)}
    requires DistinctKeys(rest)
    ensures DistinctKeys([first] + rest)
  {
    var r := [first] + rest;
    forall i, j | 0 <= i < j < |r|
      ensures Key(r[i]) != Key(r[j])
    {
      assert r[j] == rest[j - 1];
      if i > 0 {
        assert r[i] == rest[i - 1];
      }
    }
  }

  lemma KeepFreshCovers(rows: seq<Candidate>, seen: set<Option<int>>, rest: seq<Candidate>)
    requires |rows| > 0
    requires Covers(rest, rows[1..], seen + {Key(rows[0])})
    ensures Covers([rows[0]] + rest, rows, seen)
  {
    var r := [rows[0]] + rest;
    forall c | c in rows && Key(c) !in seen
      ensures exists j :: 0 <= j < |r| && Key(r[j]) == Key(c)
    {
      if Key(c) == Key(rows[0]) {
        assert Key(r[0]) == Key(c);
      } else {
        assert c in rows[1..];
        var j :| 0 <= j < |rest| && Key(rest[j]) == Key(c);
        assert r[j + 1] == rest[j];
      }
    }
  }

  /** `MOD(FARM_FINGERPRINT(CAST(vinted_id AS STRING)), total_shards) = shard_index`
      is TRUE; `fingerprint` stands for FARM_FINGERPRINT of the id's string form.
      A NULL key makes the comparison NULL, so such a row is never kept. */
  predicate InShardRow(c: Candidate, shardIndex: int, totalShards: int, fingerprint: int -> int)
    requires totalShards != 0
  {
    Key(c).Some? && Sharding.InShard(fingerprint(Key(c).value), shardIndex, totalShards)
  }

  function ShardFilter(rows: seq<Candidate>, shardIndex: int, totalShards: int, fingerprint: int -> int)
    : (r: seq<Candidate>)
    requires totalShards != 0
    ensures forall x :: x in r <==> x in rows && InShardRow(x, shardIndex, totalShards, fingerprint)
    ensures DistinctKeys(rows) ==> DistinctKeys(r)
    decreases |rows|
  {
    if rows == [] then []
    else
      var rest := ShardFilter(rows[1..], shardIndex, totalShards, fingerprint);
      if InShardRow(rows[0], shardIndex, totalShards, fingerprint) then
        assert DistinctKeys(rows) ==> forall x :: x in rest ==> Key(x) != Key(rows[0]);
        [rows[0]] + rest
      else rest
  }

  // ---------------------------------------------------------------------------
  // The answer

  datatype QueryParams = QueryParams(shuffle: bool, shardIndex: int, totalShards: int)

  /** The default arguments `shuffle=False, shard_index=0, total_shards=1`. */
  const Defaults := QueryParams(false, 0, 1)

  /** BigQuery raises "division by zero" for MOD(x, 0): with no shards the query fails. */
  predicate QueryFails(p: QueryParams) {
    p.totalShards == 0
  }

  /** `result` lists the rows of `target`, each exactly once, in some order. */
  predicate SameRows(result: seq<Candidate>, target: seq<Candidate>) {
    && (forall i, j :: 0 <= i < j < |result| ==> result[i] != result[j])
    && (forall x :: x in result ==> x in target)
    && (forall x :: x in target ==> x in result)
  }

  /** The query returns `result` when the engine numbered the rows `chosen` 1.
      `p.shuffle` only orders the rows, and any order is admitted. */
  predicate QueryAnswer(db: Tables, p: QueryParams, fingerprint: int -> int, chosen: seq<Candidate>, result: seq<Candidate>) {
    && !QueryFails(p)
    && RowNumberOne(Tab(db), chosen)
    && SameRows(result, ShardFilter(chosen, p.shardIndex, p.totalShards, fingerprint))
  }

  /** Whenever the shard count is not zero, the query has an answer. */
  lemma AnswerExists(db: Tables, p: QueryParams, fingerprint: int -> int)
    requires !QueryFails(p)
    ensures var chosen := KeepFirst(Tab(db), {});
            QueryAnswer(db, p, fingerprint, chosen, ShardFilter(chosen, p.shardIndex, p.totalShards, fingerprint))
  {
    var chosen := KeepFirst(Tab(db), {});
    var r := ShardFilter(chosen, p.shardIndex, p.totalShards, fingerprint);
    forall i, j | 0 <= i < j < |r|
      ensures r[i] != r[j]
    {
      assert Key(r[i]) != Key(r[j]);
    }
  }

  /** At most one row per `vinted_id`, and that id is never NULL. */
  lemma {:induction false} AnswerOnePerVintedId(db: Tables, p: QueryParams, fingerprint: int -> int, chosen: seq<Candidate>, result: seq<Candidate>)
    requires QueryAnswer(db, p, fingerprint, chosen, result)
    ensures forall i :: 0 <= i < |result| ==> Key(result[i]).Some?
    ensures forall i, j :: 0 <= i < j < |result| ==> Key(result[i]) != Key(result[j])
  {
    forall i | 0 <= i < |result|
      ensures Key(result[i]).Some?
    {
      assert result[i] in result;
    }
    forall i, j | 0 <= i < j < |result|
      ensures Key(result[i]) != Key(result[j])
    {
      assert result[i] in result && result[j] in result;
      var a :| 0 <= a < |chosen| && chosen[a] == result[i];
      var b :| 0 <= b < |chosen| && chosen[b] == result[j];
      assert a != b;
    }
  }

  /** Every returned row is a joined row of an item of the item table whose id is
      not in the ledger and whose `vinted_id` is not in the sold table, and it
      satisfies the shard predicate. */
  lemma {:induction false} AnswerRowsAreEligible(db: Tables, p: QueryParams, fingerprint: int -> int, chosen: seq<Candidate>, result: seq<Candidate>)
    requires QueryAnswer(db, p, fingerprint, chosen, result)
    ensures forall r :: r in result ==> r.item in db.items
    ensures forall r :: r in result ==> r.item.id !in db.ledger && (|db.ledger| > 0 ==> r.item.id.Some?)
    ensures forall r :: r in result ==> r.item.vintedId !in db.sold && r.item.vintedId.Some?
    ensures forall r :: r in result ==> InShardRow(r, p.shardIndex, p.totalShards, fingerprint)
  {
    forall r | r in result
      ensures r in Tab(db)
    {
      var a :| 0 <= a < |chosen| && chosen[a] == r;
    }
  }

  /** A single NULL `item_id` in the ledger makes every NOT IN test UNKNOWN or
      FALSE, so the query returns nothing at all. */
  lemma {:induction false} NullInLedgerEmptiesAnswer(db: Tables, p: QueryParams, fingerprint: int -> int, chosen: seq<Candidate>, result: seq<Candidate>)
    requires QueryAnswer(db, p, fingerprint, chosen, result)
    requires None in db.ledger
    ensures result == []
  {
    assert forall x :: !PassesWhere(x, db);
    assert forall x :: x !in Tab(db);
    assert forall x :: x !in result;
    NoMemberMeansEmpty(result);
  }

  lemma NoMemberMeansEmpty<T>(s: seq<T>)
    requires forall x :: x !in s
    ensures s == []
  {
    if |s| > 0 {
      ElementIsMember(s, 0);
    }
  }

  lemma ElementIsMember<T>(s: seq<T>, i: int)
    requires 0 <= i < |s|
    ensures s[i] in s
  {
  }

  /** For a fixed shard count, the answers for two different shard indices share
      no `vinted_id`, whichever duplicates the engine picked in each run. */
  lemma {:induction false} ShardAnswersDisjoint(
    db: Tables, p1: QueryParams, p2: QueryParams, fingerprint: int -> int,
    chosen1: seq<Candidate>, result1: seq<Candidate>, chosen2: seq<Candidate>, result2: seq<Candidate>)
    requires QueryAnswer(db, p1, fingerprint, chosen1, result1)
    requires QueryAnswer(db, p2, fingerprint, chosen2, result2)
    requires p1.totalShards == p2.totalShards && p1.shardIndex != p2.shardIndex
    ensures forall x, y :: x in result1 && y in result2 ==> Key(x) != Key(y)
  {
    forall x, y | x in result1 && y in result2
      ensures Key(x) != Key(y)
    {
      assert InShardRow(x, p1.shardIndex, p1.totalShards, fingerprint);
      assert InShardRow(y, p2.shardIndex, p2.totalShards, fingerprint);
    }
  }

  /** With the defaults `total_shards = 1, shard_index = 0` nothing is lost to
      sharding: every `tab` row with a non-NULL `vinted_id` is represented. */
  lemma {:induction false} DefaultsKeepEveryPartition(db: Tables, shuffle: bool, fingerprint: int -> int, chosen: seq<Candidate>, result: seq<Candidate>)
    requires QueryAnswer(db, Defaults.(shuffle := shuffle), fingerprint, chosen, result)
    ensures forall c :: c in Tab(db) && Key(c).Some? ==> exists r :: r in result && Key(r) == Key(c)
  {
    var kept := ShardFilter(chosen, 0, 1, fingerprint);
    assert Covers(chosen, Tab(db), {}) && SameRows(result, kept);
    forall c | c in Tab(db) && Key(c).Some?
      ensures exists r :: r in result && Key(r) == Key(c)
    {
      var j :| 0 <= j < |chosen| && Key(chosen[j]) == Key(c);
      assert chosen[j] in kept by {
        Sharding.DefaultShardKeepsAll(fingerprint(Key(c).value));
        assert InShardRow(chosen[j], 0, 1, fingerprint);
        assert chosen[j] in chosen;
      }
      assert chosen[j] in result;
    }
  }

  /** Completeness with the defaults: an item with non-NULL ids, absent from a
      NULL-free ledger and a NULL-free sold table, is returned (as some row of its
      `vinted_id`), with or without image, category or catalog matches. */
  lemma {:induction false} EligibleItemReturned(db: Tables, shuffle: bool, fingerprint: int -> int, chosen: seq<Candidate>, result: seq<Candidate>, it: ItemRow)
    requires QueryAnswer(db, Defaults.(shuffle := shuffle), fingerprint, chosen, result)
    requires it in db.items
    requires it.id.Some? && it.id !in db.ledger && None !in db.ledger
    requires it.vintedId.Some? && it.vintedId !in db.sold && None !in db.sold
    ensures exists r :: r in result && Key(r) == it.vintedId
  {
    var x :| x in Joined(db.items, db) && x.item == it;
    assert PassesWhere(x, db);
    assert x in Tab(db);
    DefaultsKeepEveryPartition(db, shuffle, fingerprint, chosen, result);
  }
}

=== FILE: pinecone.dfy ===
/** The Pinecone variant of the sink (src/pinecone.py): record preparation,
    which also flags each kept payload as available in the caller's list, and
    the upsert wrapper with its empty-list guard. */
module Pinecone {
  import opened Records

  /** The dict `{"id": ..., "values": ..., "metadata": ...}` sent to the index. */
  datatype Vector = Vector(id: PointId, values: Embedding, metadata: Payload)

  /** `payload["is_available"] = True`. */
  function MarkAvailable(p: Payload): (q: Payload)
    ensures Get(q, "is_available") == Bool(true)
    ensures Get(q, "id") == Get(p, "id")
    ensures forall key :: key != "is_available" ==> Get(q, key) == Get(p, key)
    ensures q.Keys == p.Keys + {"is_available"}
    ensures forall key :: key in p && key != "is_available" ==> q[key] == p[key]
  {
    p["is_available" := Bool(true)]
  }

  /** The payload at position `i` once the first `m` zipped triples have been visited. */
  function PayloadAfter(ps: seq<Payload>, m: nat, i: nat): Payload
    requires i < |ps|
  {
    if i < m && HasItemId(ps[i]) then MarkAvailable(ps[i]) else ps[i]
  }

  /** `vectors` and `rows` are what `prepare` builds from the kept positions
      below `m`, in order: one vector and one ledger row per kept payload. */
  predicate Built(ids: seq<PointId>, ps: seq<Payload>, es: seq<Embedding>, m: nat,
                  vectors: seq<Vector>, rows: seq<LedgerRow>)
    requires m <= ZipLen(ids, ps, es)
  {
    var ks := KeptIndices(ps, m);
    && |vectors| == |ks| && |rows| == |ks|
    && (forall k :: 0 <= k < |ks| ==>
          vectors[k] == Vector(ids[ks[k]], es[ks[k]], MarkAvailable(ps[ks[k]])))
    && (forall k :: 0 <= k < |ks| ==>
          rows[k] == LedgerRow(Get(ps[ks[k]], "id"), ids[ks[k]]))
  }

  /** The loop of `prepare` over the first `m` zipped triples. The third
      component is the caller's payload list after the loop has mutated it. */
  function PrepareFirst(ids: seq<PointId>, ps: seq<Payload>, es: seq<Embedding>, m: nat)
    : (r: (seq<Vector>, seq<LedgerRow>, seq<Payload>))
    requires m <= ZipLen(ids, ps, es)
    ensures Built(ids, ps, es, m, r.0, r.1)
    ensures |r.2| == |ps|
    ensures forall i :: 0 <= i < |ps| ==> r.2[i] == PayloadAfter(ps, m, i)
    decreases m
  {
    if m == 0 then ([], [], ps)
    else
      var (vectors, rows, after) := PrepareFirst(ids, ps, es, m - 1);
      var i := m - 1;
      AfterStep(ps, m, after);
      BuiltStep(ids, ps, es, m, vectors, rows);
      if HasItemId(after[i]) then
        var payload := MarkAvailable(after[i]);
        (vectors + [Vector(ids[i], es[i], payload)],
         rows + [LedgerRow(Get(payload, "id"), ids[i])],
         after[i := payload])
      else
        (vectors, rows, after)
  }

  /** Visiting position `m - 1` appends its vector and row when it carries an id. */
  lemma BuiltStep(ids: seq<PointId>, ps: seq<Payload>, es: seq<Embedding>, m: nat,
                  vectors: seq<Vector>, rows: seq<LedgerRow>)
    requires 0 < m <= ZipLen(ids, ps, es)
    requires Built(ids, ps, es, m - 1, vectors, rows)
    ensures var i := m - 1;
            HasItemId(ps[i]) ==>
              Built(ids, ps, es, m, vectors + [Vector(ids[i], es[i], MarkAvailable(ps[i]))],
                    rows + [LedgerRow(Get(ps[i], "id"), ids[i])])
    ensures !HasItemId(ps[m - 1]) ==> Built(ids, ps, es, m, vectors, rows)
  {
    var i := m - 1;
    var prev := KeptIndices(ps, i);
    if HasItemId(ps[i]) {
      var ks := KeptIndices(ps, m);
      assert ks == prev + [i];
      var vs := vectors + [Vector(ids[i], es[i], MarkAvailable(ps[i]))];
      var rs := rows + [LedgerRow(Get(ps[i], "id"), ids[i])];
      forall k | 0 <= k < |ks|
        ensures vs[k] == Vector(ids[ks[k]], es[ks[k]], MarkAvailable(ps[ks[k]]))
        ensures rs[k] == LedgerRow(Get(ps[ks[k]], "id"), ids[ks[k]])
      {
        if k < |prev| {
          assert ks[k] == prev[k] && vs[k] == vectors[k] && rs[k] == rows[k];
        } else {
          assert ks[k] == i;
        }
      }
    } else {
      assert KeptIndices(ps, m) == prev + [];
    }
  }

  /** Visiting position `m - 1` flags it when it carries an id and leaves the
      rest of the list as it was. */
  lemma AfterStep(ps: seq<Payload>, m: nat, after: seq<Payload>)
    requires 0 < m <= |ps| && |after| == |ps|
    requires forall i :: 0 <= i < |ps| ==> after[i] == PayloadAfter(ps, m - 1, i)
    ensures after[m - 1] == ps[m - 1]
    ensures HasItemId(ps[m - 1]) ==>
              forall i :: 0 <= i < |ps| ==> after[m - 1 := MarkAvailable(ps[m - 1])][i] == PayloadAfter(ps, m, i)
    ensures !HasItemId(ps[m - 1]) ==> forall i :: 0 <= i < |ps| ==> after[i] == PayloadAfter(ps, m, i)
  {
  }

  /** `prepare(point_ids, payloads, embeddings)`: same selection as the Qdrant
      variant, but every kept payload is flagged `is_available = True` in place,
      so the vector's metadata and the caller's list both see the flag, while
      dropped payloads and those past the end of the zip stay as they were. */
  function Prepare(ids: seq<PointId>, ps: seq<Payload>, es: seq<Embedding>)
    : (r: (seq<Vector>, seq<LedgerRow>, seq<Payload>))
    ensures |r.0| == |r.1| && |r.2| == |ps|
    ensures |r.0| <= |ids| && |r.0| <= |ps| && |r.0| <= |es|
    ensures var ks := KeptIndices(ps, ZipLen(ids, ps, es));
            && |r.0| == |ks|
            && forall k :: 0 <= k < |ks| ==>
                 && r.0[k].id == ids[ks[k]]
                 && r.0[k].values == es[ks[k]]
                 && r.0[k].metadata == r.2[ks[k]]
    ensures forall k :: 0 <= k < |r.1| ==>
              && r.1[k].pointId == r.0[k].id
              && r.1[k].itemId == Get(r.0[k].metadata, "id")
              && Truthy(r.1[k].itemId)
              && Get(r.0[k].metadata, "is_available") == Bool(true)
    ensures forall i :: 0 <= i < |ps| ==>
              if i < ZipLen(ids, ps, es) && HasItemId(ps[i])
              then r.2[i] == ps[i]["is_available" := Bool(true)]
              else r.2[i] == ps[i]
  {
    PrepareFirst(ids, ps, es, ZipLen(ids, ps, es))
  }

  /** `upload(index, vectors)`: an empty list returns False before the index is
      touched; otherwise the wrapper returns True exactly when the upsert returns. */
  function Upload(vectors: seq<Vector>, upsert: CallOutcome): (r: SinkCall<Vector>)
    ensures |vectors| == 0 ==> r == SinkCall(false, None)
    ensures |vectors| > 0 ==> r.sent == Some(vectors)
    ensures r.ok <==> |vectors| > 0 && upsert == Returned
  {
    if |vectors| == 0 then SinkCall(false, None)
    else SinkCall(upsert == Returned, Some(vectors))
  }
}

=== FILE: pipeline.dfy ===
/** The `main` loop of main.py as a step function over a state record. Each
    catalog row arrives as a `RowEvent` that also carries what the outside
    world answers for it: the fresh point id, the image download, and, should
    the row complete a batch, the encoder's output and the results of the
    Qdrant and BigQuery calls. The state records, besides the three buffers
    and the two counters, the points and ledger rows the sinks accepted. */
module Pipeline {
  import opened Records
  import Qdrant
  import BigQuery

  const BatchSize: nat := 32

  /** A decoded image; the model never looks inside. */
  datatype Image = Image(pixels: seq<int>)

  /** The answers of the external calls one flush makes. */
  datatype FlushOracle = FlushOracle(
    encoded: Option<seq<Embedding>>,  // encode_images: None when it raised
    bulkUpsert: CallOutcome,          // the upsert of the whole batch
    singleUpserts: seq<CallOutcome>,  // the k-th single-point upsert of the fallback; missing entries raise
    insertErrors: seq<string>)        // the error list insert_rows_json returns

  /** One row of the loader together with the answers for it. `download` is
      None when the response status is not 200. */
  datatype RowEvent = RowEvent(row: Payload, pointId: PointId, download: Option<Image>, flush: FlushOracle)

  datatype State = State(
    pointIds: seq<PointId>,
    images: seq<Option<Image>>,
    payloads: seq<Payload>,
    n: nat,                      // items pulled into a flush attempt
    nSuccess: nat,               // items credited as inserted
    store: seq<Qdrant.Point>,    // points whose upsert returned
    ledger: seq<LedgerRow>)      // rows whose insert reported no errors

  const Init := State([], [], [], 0, 0, [], [])

  predicate Aligned(s: State) {
    |s.pointIds| == |s.images| && |s.images| == |s.payloads|
  }

  /** The invariant of the loop: equal buffers and `0 <= n_success <= n`. */
  predicate Valid(s: State) {
    Aligned(s) && s.nSuccess <= s.n
  }

  /** main.py:28-34: every row is buffered, whatever the download gave. */
  function Buffer(s: State, e: RowEvent): (b: State)
    ensures b.pointIds == s.pointIds + [e.pointId]
    ensures b.images == s.images + [e.download]
    ensures b.payloads == s.payloads + [e.row]
    ensures b.n == s.n && b.nSuccess == s.nSuccess && b.store == s.store && b.ledger == s.ledger
  {
    s.(pointIds := s.pointIds + [e.pointId], images := s.images + [e.download], payloads := s.payloads + [e.row])
  }

  predicate Upserted(outcomes: seq<CallOutcome>, k: nat) {
    k < |outcomes| && outcomes[k] == Returned
  }

  /** The positions below `m` whose single-point upsert returned, in order. */
  function UpsertedIndices(outcomes: seq<CallOutcome>, m: nat): (ks: seq<nat>)
    ensures |ks| <= m
    ensures forall j :: 0 <= j < |ks| ==> ks[j] < m && Upserted(outcomes, ks[j])
    ensures forall k :: 0 <= k < m && Upserted(outcomes, k) ==> k in ks
    ensures forall j, l :: 0 <= j < l < |ks| ==> ks[j] < ks[l]
    decreases m
  {
    if m == 0 then []
    else UpsertedIndices(outcomes, m - 1) + (if Upserted(outcomes, m - 1) then [m - 1] else [])
  }

  /** main.py:60-66 over the first `m` pairs of `zip(points, rows)`: each point is
      upserted on its own, and the points that went in and their rows
      (`valid_rows`) are collected. */
  function FallbackFirst(points: seq<Qdrant.Point>, rows: seq<LedgerRow>, outcomes: seq<CallOutcome>, m: nat)
    : (r: (seq<Qdrant.Point>, seq<LedgerRow>))
    requires m <= |points| && m <= |rows|
    ensures var ks := UpsertedIndices(outcomes, m);
            && |r.0| == |ks| && |r.1| == |ks|
            && forall j :: 0 <= j < |ks| ==> r.0[j] == points[ks[j]] && r.1[j] == rows[ks[j]]
    decreases m
  {
    if m == 0 then ([], [])
    else
      var (stored, validRows) := FallbackFirst(points, rows, outcomes, m - 1);
      var k := m - 1;
      if Qdrant.Upload([points[k]], if k < |outcomes| then outcomes[k] else Raised).ok then
        (stored + [points[k]], validRows + [rows[k]])
      else
        (stored, validRows)
  }

  function Fallback(points: seq<Qdrant.Point>, rows: seq<LedgerRow>, outcomes: seq<CallOutcome>)
    : (r: (seq<Qdrant.Point>, seq<LedgerRow>))
    requires |points| == |rows|
  {
    FallbackFirst(points, rows, outcomes, |points|)
  }

  /** main.py:37-76, the body of the flush: `n` grows by the whole buffer before
      encoding; an encoder failure leaves the buffers as they are; otherwise the
      batch is prepared, upserted in bulk (or point by point when the bulk
      upsert fails), its ledger rows are inserted, and the buffers are reset. */
  function Flush(s: State, o: FlushOracle): (s': State)
    requires |s.pointIds| > 0
    ensures s'.n == s.n + |s.pointIds| && s'.n > 0
    ensures s'.nSuccess == s.nSuccess || s'.nSuccess == s.nSuccess + |s.pointIds|
    ensures o.encoded.None? ==> s' == s.(n := s'.n)
    ensures o.encoded.Some? ==> s'.pointIds == [] && s'.images == [] && s'.payloads == []
    ensures o.encoded.Some? ==>
              var (points, rows) := Qdrant.Prepare(s.pointIds, s.payloads, o.encoded.value);
              var inserted := |rows| > 0 && |o.insertErrors| == 0;
              && s'.nSuccess == s.nSuccess + (if inserted then |s.pointIds| else 0)
              && s'.ledger == s.ledger + (if inserted then rows else [])
              && (o.bulkUpsert == Returned ==> s'.store == s.store + points)
              && (o.bulkUpsert == Raised ==> s'.store == s.store + Fallback(points, rows, o.singleUpserts).0)
  {
    var n' := s.n + |s.pointIds|;
    match o.encoded
    case None => s.(n := n')
    case Some(embeddings) =>
      var (points, rows) := Qdrant.Prepare(s.pointIds, s.payloads, embeddings);
      if Qdrant.Upload(points, o.bulkUpsert).ok then
        var inserted := BigQuery.Upload(rows, o.insertErrors).ok;
        State([], [], [], n',
              if inserted then s.nSuccess + |s.pointIds| else s.nSuccess,
              s.store + points,
              if inserted then s.ledger + rows else s.ledger)
      else
        var (stored, validRows) := Fallback(points, rows, o.singleUpserts);
        var inserted := BigQuery.Upload(rows, o.insertErrors).ok;
        State([], [], [], n',
              if inserted then s.nSuccess + |s.pointIds| else s.nSuccess,
              s.store + stored,
              if inserted then s.ledger + rows else s.ledger)
  }

  /** One iteration of `for row in loop`: buffer the row, and flush when the
      buffer length is a positive multiple of BATCH_SIZE. */
  function Step(s: State, e: RowEvent): (s': State)
    ensures Aligned(s) ==> Aligned(s')
    ensures s.n <= s'.n && s.nSuccess <= s'.nSuccess && s'.nSuccess - s.nSuccess <= s'.n - s.n
    ensures s'.n == s.n + (if (|s.pointIds| + 1) % BatchSize == 0 then |s.pointIds| + 1 else 0)
    ensures (|s.pointIds| + 1) % BatchSize != 0 ==> s' == Buffer(s, e)
    ensures (|s.pointIds| + 1) % BatchSize == 0 && e.flush.encoded.None? ==>
              s' == Buffer(s, e).(n := s.n + |s.pointIds| + 1)
    ensures (|s.pointIds| + 1) % BatchSize == 0 && e.flush.encoded.Some? ==>
              s'.pointIds == [] && s'.images == [] && s'.payloads == [] && s'.n > 0
  {
    var b := Buffer(s, e);
    if |b.pointIds| > 0 && |b.pointIds| % BatchSize == 0 then Flush(b, e.flush) else b
  }

  /** The loop over the whole loader. A buffer left over when the rows run out
      is never flushed. */
  function Run(s: State, es: seq<RowEvent>): State
    decreases |es|
  {
    if es == [] then s else Run(Step(s, es[0]), es[1..])
  }

  /** The point ids the events bring, in order. */
  function IdsOf(es: seq<RowEvent>): (ids: seq<PointId>)
    ensures |ids| == |es|
    ensures forall i :: 0 <= i < |es| ==> ids[i] == es[i].pointId
    decreases |es|
  {
    if es == [] then [] else [es[0].pointId] + IdsOf(es[1..])
  }

  /** The loop keeps its invariant: the buffers stay equally long, the counters
      only grow, and `n_success` never overtakes `n`. */
  lemma {:induction false} RunKeepsInvariant(s: State, es: seq<RowEvent>)
    requires Valid(s)
    ensures Valid(Run(s, es))
    ensures s.n <= Run(s, es).n && s.nSuccess <= Run(s, es).nSuccess
    ensures Run(s, es).nSuccess - s.nSuccess <= Run(s, es).n - s.n
    decreases |es|
  {
    if es != [] {
      RunKeepsInvariant(Step(s, es[0]), es[1..]);
    }
  }

  /** Running the events one after the other is running their concatenation. */
  lemma {:induction false} RunConcat(s: State, a: seq<RowEvent>, b: seq<RowEvent>)
    ensures Run(s, a + b) == Run(Run(s, a), b)
    decreases |a|
  {
    if a == [] {
      assert a + b == b;
    } else {
      assert (a + b)[0] == a[0] && (a + b)[1..] == a[1..] + b;
      assert Run(s, a + b) == Run(Step(s, a[0]), a[1..] + b);
      assert Run(s, a) == Run(Step(s, a[0]), a[1..]);
      RunConcat(Step(s, a[0]), a[1..], b);
    }
  }

  predicate AtBatchBoundary(len: int) {
    len % BatchSize == 0
  }

  /** Rows that never bring the buffer to a multiple of 32 are only buffered. */
  lemma {:induction false} RunBelowThreshold(s: State, es: seq<RowEvent>)
    requires forall len :: |s.pointIds| < len <= |s.pointIds| + |es| ==> !AtBatchBoundary(len)
    ensures Run(s, es).pointIds == s.pointIds + IdsOf(es)
    ensures Run(s, es).n == s.n && Run(s, es).nSuccess == s.nSuccess
    ensures Run(s, es).store == s.store && Run(s, es).ledger == s.ledger
    decreases |es|
  {
    if es != [] {
      assert !AtBatchBoundary(|s.pointIds| + 1);
      var s' := Step(s, es[0]);
      StepBuffers(s, es[0]);
      assert s'.pointIds == s.pointIds + [es[0].pointId];
      assert Run(s, es) == Run(s', es[1..]);
      RunBelowThreshold(s', es[1..]);
      IdsOfCons(es);
      ConcatAssoc(s.pointIds, [es[0].pointId], IdsOf(es[1..]));
    }
  }

  lemma StepBuffers(s: State, e: RowEvent)
    requires !AtBatchBoundary(|s.pointIds| + 1)
    ensures Step(s, e) == Buffer(s, e)
  {
  }

  lemma StepFlushesEncoded(s: State, e: RowEvent)
    requires AtBatchBoundary(|s.pointIds| + 1) && e.flush.encoded.Some?
    ensures Step(s, e).pointIds == [] && Step(s, e).n == s.n + |s.pointIds| + 1
  {
  }

  lemma StepFlushFails(s: State, e: RowEvent)
    requires AtBatchBoundary(|s.pointIds| + 1) && e.flush.encoded.None?
    ensures |Step(s, e).pointIds| == |s.pointIds| + 1 && Step(s, e).n == s.n + |s.pointIds| + 1
  {
  }

  lemma ModBelow(x: int)
    requires 0 <= x < BatchSize
    ensures x % BatchSize == x
  {
  }

  lemma ModShift(x: int)
    requires 0 <= x
    ensures (x + BatchSize) % BatchSize == x % BatchSize
  {
  }

  lemma IdsAfterFullBatch(prefix: seq<PointId>, es: seq<RowEvent>, x: nat)
    requires |prefix| + 1 == BatchSize && |es| > 0 && x <= |es| - 1
    ensures (prefix + IdsOf(es))[BatchSize + x..] == IdsOf(es[1..])[x..]
  {
    IdsOfCons(es);
    ConcatAssoc(prefix, [es[0].pointId], IdsOf(es[1..]));
    DropConcat(prefix + [es[0].pointId], IdsOf(es[1..]), x);
  }

  lemma DropConcat<T>(a: seq<T>, b: seq<T>, x: nat)
    requires x <= |b|
    ensures (a + b)[|a| + x..] == b[x..]
  {
    assert forall i :: 0 <= i < |b| - x ==> (a + b)[|a| + x..][i] == b[x..][i];
  }

  /** The buffer and `n` a run reaches when every encode succeeds, starting from
      `start` and given the events `es`. */
  predicate EncodedOutcome(start: State, es: seq<RowEvent>, final: State) {
    var total := |start.pointIds| + |es|;
    && |final.pointIds| == total % BatchSize
    && final.pointIds == (start.pointIds + IdsOf(es))[total - total % BatchSize..]
    && final.n == start.n + (total - total % BatchSize)
  }

  lemma FullBatchCase(s: State, es: seq<RowEvent>, next: State, final: State)
    requires |s.pointIds| + 1 == BatchSize && |es| > 0
    requires next.pointIds == [] && next.n == s.n + BatchSize
    requires EncodedOutcome(next, es[1..], final)
    ensures EncodedOutcome(s, es, final)
  {
    var rest := es[1..];
    var r := |rest| % BatchSize;
    var total := |s.pointIds| + |es|;
    var cut := total - total % BatchSize;
    assert cut == BatchSize + (|rest| - r) && total % BatchSize == r by {
      FullBatchCut(|s.pointIds|, |es|);
    }
    assert final.pointIds == (s.pointIds + IdsOf(es))[cut..] by {
      EmptyConcat(IdsOf(rest));
      IdsAfterFullBatch(s.pointIds, es, |rest| - r);
    }
  }

  lemma EmptyConcat<T>(b: seq<T>)
    ensures [] + b == b
  {
  }

  /** The arithmetic of `FullBatchCase`: a full first batch shifts the cut by 32. */
  lemma FullBatchCut(len: nat, count: nat)
    requires len + 1 == BatchSize && count > 0
    ensures (len + count) % BatchSize == (count - 1) % BatchSize
    ensures (len + count) - (len + count) % BatchSize == BatchSize + ((count - 1) - (count - 1) % BatchSize)
  {
    ModShift(count - 1);
  }

  lemma PartialBatchCase(s: State, es: seq<RowEvent>, next: State, final: State)
    requires |es| > 0
    requires next.pointIds == s.pointIds + [es[0].pointId] && next.n == s.n
    requires EncodedOutcome(next, es[1..], final)
    ensures EncodedOutcome(s, es, final)
  {
    var ids := s.pointIds + IdsOf(es);
    assert |next.pointIds| + |es[1..]| == |s.pointIds| + |es|;
    IdsOfCons(es);
    ConcatAssoc(s.pointIds, [es[0].pointId], IdsOf(es[1..]));
    assert next.pointIds + IdsOf(es[1..]) == ids;
  }

  lemma IdsOfCons(es: seq<RowEvent>)
    requires |es| > 0
    ensures IdsOf(es) == [es[0].pointId] + IdsOf(es[1..])
  {
  }

  lemma ConcatAssoc<T>(a: seq<T>, b: seq<T>, c: seq<T>)
    ensures (a + b) + c == a + (b + c)
  {
  }

  /** Every flush of the events encodes successfully. */
  predicate AllEncoded(es: seq<RowEvent>) {
    forall i :: 0 <= i < |es| ==> es[i].flush.encoded.Some?
  }

  /** When every encode succeeds, the run flushes exactly at each multiple of 32:
      `n` counts every completed batch once, and what is left in the buffer at
      the end is the trailing remainder of fewer than 32 rows, never encoded. */
  lemma {:induction false} RunAllEncoded(s: State, es: seq<RowEvent>)
    requires |s.pointIds| < BatchSize && AllEncoded(es)
    ensures EncodedOutcome(s, es, Run(s, es))
    decreases |es|
  {
    if es == [] {
      ModBelow(|s.pointIds|);
      assert s.pointIds + IdsOf(es) == s.pointIds;
    } else {
      var next := RunCons(s, es);
      assert AllEncoded(es[1..]) by {
        forall i | 0 <= i < |es[1..]| ensures es[1..][i].flush.encoded.Some? {
          assert es[1..][i] == es[i + 1];
        }
      }
      RunAllEncoded(next, es[1..]);
      if |s.pointIds| + 1 == BatchSize {
        FullBatchCase(s, es, next, Run(next, es[1..]));
      } else {
        PartialBatchCase(s, es, next, Run(next, es[1..]));
      }
    }
  }

  /** One step of a run whose first flush, if any, encodes successfully. */
  lemma RunCons(s: State, es: seq<RowEvent>) returns (next: State)
    requires |es| > 0 && |s.pointIds| < BatchSize && es[0].flush.encoded.Some?
    ensures Run(s, es) == Run(next, es[1..])
    ensures |s.pointIds| + 1 == BatchSize ==> next.pointIds == [] && next.n == s.n + BatchSize
    ensures |s.pointIds| + 1 < BatchSize ==> next.pointIds == s.pointIds + [es[0].pointId] && next.n == s.n
  {
    next := Step(s, es[0]);
    if |s.pointIds| + 1 == BatchSize {
      StepFlushesEncoded(s, es[0]);
    } else {
      ModBelow(|s.pointIds| + 1);
      StepBuffers(s, es[0]);
    }
  }

  /** An encoder failure skips the reset: the failed batch stays buffered, is
      encoded again with the next 32 rows, and is counted in `n` a second time.
      Sixty-four rows whose first flush fails raise `n` by 96. */
  lemma {:induction false} EncodeFailureRecounts(s: State, es: seq<RowEvent>)
    requires s.pointIds == []
    requires |es| == 2 * BatchSize
    requires es[BatchSize - 1].flush.encoded.None?
    requires es[2 * BatchSize - 1].flush.encoded.Some?
    ensures Run(s, es).n == s.n + 3 * BatchSize
    ensures Run(s, es).pointIds == []
  {
    var first, second := es[..32], es[32..];
    assert es == first + second;
    RunConcat(s, first, second);
    FirstBatchFails(s, first);
    SecondBatchEncodes(Run(s, first), second);
  }

  /** Thirty-two rows into an empty buffer whose flush fails to encode: all 32
      stay buffered and `n` has counted them. */
  lemma {:induction false} FirstBatchFails(s: State, es: seq<RowEvent>)
    requires s.pointIds == [] && |es| == BatchSize && es[BatchSize - 1].flush.encoded.None?
    ensures |Run(s, es).pointIds| == BatchSize && Run(s, es).n == s.n + BatchSize
  {
    var a := es[..31];
    assert es == a + [es[31]];
    RunConcat(s, a, [es[31]]);
    NoBoundaryWithin(0);
    RunBelowThreshold(s, a);
    var s1 := Run(s, a);
    RunSingle(s1, es[31]);
    assert AtBatchBoundary(|s1.pointIds| + 1);
    StepFlushFails(s1, es[31]);
  }

  /** Thirty-two more rows onto a buffer of 32 whose flush encodes: the 64 rows
      are flushed together and `n` counts all 64. */
  lemma {:induction false} SecondBatchEncodes(s: State, es: seq<RowEvent>)
    requires |s.pointIds| == BatchSize && |es| == BatchSize && es[BatchSize - 1].flush.encoded.Some?
    ensures Run(s, es).pointIds == [] && Run(s, es).n == s.n + 2 * BatchSize
  {
    var a := es[..31];
    assert es == a + [es[31]];
    RunConcat(s, a, [es[31]]);
    NoBoundaryWithin(32);
    RunBelowThreshold(s, a);
    var s1 := Run(s, a);
    RunSingle(s1, es[31]);
    assert AtBatchBoundary(|s1.pointIds| + 1);
    StepFlushesEncoded(s1, es[31]);
  }

  /** No buffer length strictly between a multiple of 32 and the next one
      triggers a flush. */
  lemma NoBoundaryWithin(base: nat)
    requires AtBatchBoundary(base)
    ensures forall len :: base < len < base + BatchSize ==> !AtBatchBoundary(len)
  {
    forall len | base < len < base + BatchSize
      ensures !AtBatchBoundary(len)
    {
      var q := base / BatchSize;
      assert base == q * BatchSize;
      assert len == q * BatchSize + (len - base);
      assert len % BatchSize == len - base;
    }
  }

  lemma RunSingle(s: State, e: RowEvent)
    ensures Run(s, [e]) == Step(s, e)
  {
    assert [e][1..] == [];
  }

  /** As written, the fallback inserts every prepared row: when the bulk upsert
      and every single upsert raise but the insert succeeds, the ledger gains
      rows for points the vector store never received, and the whole batch is
      credited. */
  lemma {:induction false} FallbackOrphanRows(s: State, o: FlushOracle)
    requires |s.pointIds| > 0 && o.encoded.Some?
    requires o.bulkUpsert == Raised
    requires forall k :: 0 <= k < |o.singleUpserts| ==> o.singleUpserts[k] == Raised
    requires |o.insertErrors| == 0
    requires exists i :: 0 <= i < ZipLen(s.pointIds, s.payloads, o.encoded.value) && HasItemId(s.payloads[i])
    ensures var (points, rows) := Qdrant.Prepare(s.pointIds, s.payloads, o.encoded.value);
            && |rows| > 0
            && Flush(s, o).store == s.store
            && Flush(s, o).ledger == s.ledger + rows
            && Flush(s, o).nSuccess == s.nSuccess + |s.pointIds|
  {
    var (points, rows) := Qdrant.Prepare(s.pointIds, s.payloads, o.encoded.value);
    var i :| 0 <= i < ZipLen(s.pointIds, s.payloads, o.encoded.value) && HasItemId(s.payloads[i]);
    assert i in KeptIndices(s.payloads, ZipLen(s.pointIds, s.payloads, o.encoded.value));
    NothingUpserted(o.singleUpserts, |points|);
  }

  /** The counter and the ledger do not depend on the vector store at all: they
      are the same whatever the bulk and single upserts answer. */
  lemma LedgerIgnoresVectorStore(s: State, o1: FlushOracle, o2: FlushOracle)
    requires |s.pointIds| > 0
    requires o1.encoded == o2.encoded && o1.insertErrors == o2.insertErrors
    ensures Flush(s, o1).nSuccess == Flush(s, o2).nSuccess
    ensures Flush(s, o1).ledger == Flush(s, o2).ledger
  {
  }

  /** `n_success` counts the batch before filtering. When both bulk calls succeed
      but some buffered record is not turned into a row (its id is not truthy,
      or the encoder returned fewer vectors than there are records), fewer rows
      than buffered records are written, yet the counter grows by the whole
      buffer as soon as one row is written. */
  lemma {:induction false} CreditExceedsRows(s: State, o: FlushOracle)
    requires |s.pointIds| > 0 && o.encoded.Some?
    requires o.bulkUpsert == Returned && |o.insertErrors| == 0
    requires || ZipLen(s.pointIds, s.payloads, o.encoded.value) < |s.pointIds|
             || exists i :: 0 <= i < ZipLen(s.pointIds, s.payloads, o.encoded.value) && !HasItemId(s.payloads[i])
    ensures var rows := Qdrant.Prepare(s.pointIds, s.payloads, o.encoded.value).1;
            && |rows| < |s.pointIds|
            && Flush(s, o).nSuccess - s.nSuccess == (if |rows| > 0 then |s.pointIds| else 0)
            && |Flush(s, o).ledger| - |s.ledger| == |rows|
  {
    var m := ZipLen(s.pointIds, s.payloads, o.encoded.value);
    if m == |s.pointIds| {
      var i :| 0 <= i < m && !HasItemId(s.payloads[i]);
      assert |KeptIndices(s.payloads, m)| < m;
    }
  }

  lemma {:induction false} NothingUpserted(outcomes: seq<CallOutcome>, m: nat)
    requires forall k :: 0 <= k < |outcomes| ==> outcomes[k] == Raised
    ensures UpsertedIndices(outcomes, m) == []
    decreases m
  {
    if m > 0 {
      NothingUpserted(outcomes, m - 1);
    }
  }

  /** The fallback the code evidently intends: only the rows of points that went
      in (`valid_rows`) are inserted, and only they are credited. Every ledger row
      written then belongs to a stored point, and when K of the single upserts
      return, exactly those K points are stored and, if the insert succeeds,
      exactly their K rows are written and K records credited. */
  function FallbackIntended(points: seq<Qdrant.Point>, rows: seq<LedgerRow>, outcomes: seq<CallOutcome>, insertErrors: seq<string>)
    : (r: (seq<Qdrant.Point>, seq<LedgerRow>, nat))
    requires |points| == |rows|
    requires forall k :: 0 <= k < |rows| ==> rows[k].pointId == points[k].id
    ensures |r.1| <= |r.0| <= |points|
    ensures forall j :: 0 <= j < |r.0| ==> r.0[j] in points
    ensures forall j :: 0 <= j < |r.1| ==> r.1[j] in rows && r.1[j].pointId == r.0[j].id
    ensures r.2 == |r.1|
    ensures |insertErrors| == 0 ==> |r.1| == |r.0|
    ensures var ks := UpsertedIndices(outcomes, |points|);
            && |r.0| == |ks|
            && (forall j :: 0 <= j < |ks| ==> r.0[j] == points[ks[j]])
            && (|insertErrors| == 0 ==> r.2 == |ks| && forall j :: 0 <= j < |ks| ==> r.1[j] == rows[ks[j]])
            && (|insertErrors| > 0 ==> r.1 == [] && r.2 == 0)
  {
    var (stored, validRows) := Fallback(points, rows, outcomes);
    var inserted := BigQuery.Upload(validRows, insertErrors).ok;
    (stored, if inserted then validRows else [], if inserted then |validRows| else 0)
  }

  /** Under the answers that leave orphan rows as written (every upsert raises,
      the insert succeeds), the intended fallback writes no row and credits
      nothing. */
  lemma {:induction false} FallbackIntendedNoOrphans(points: seq<Qdrant.Point>, rows: seq<LedgerRow>, outcomes: seq<CallOutcome>)
    requires |points| == |rows|
    requires forall k :: 0 <= k < |rows| ==> rows[k].pointId == points[k].id
    requires forall k :: 0 <= k < |outcomes| ==> outcomes[k] == Raised
    ensures FallbackIntended(points, rows, outcomes, []) == ([], [], 0)
  {
    NothingUpserted(outcomes, |points|);
  }
}

=== FILE: qdrant.dfy ===
/** The Qdrant side of the pipeline (src/qdrant.py): turning a flushed batch
    into points and ledger rows, the upsert wrapper, and the field-name to
    schema decision of payload-index creation. */
module Qdrant {
  import opened Records

  /** `models.PointStruct(id=..., vector=..., payload=...)`. */
  datatype Point = Point(id: PointId, vector: Embedding, payload: Payload)

  /** The point `prepare` builds for position `i` of the zipped inputs. */
  function PointAt(ids: seq<PointId>, ps: seq<Payload>, es: seq<Embedding>, i: nat): Point
    requires i < ZipLen(ids, ps, es)
  {
    Point(ids[i], es[i], ps[i])
  }

  /** The ledger row `prepare` builds for position `i`. */
  function RowAt(ids: seq<PointId>, ps: seq<Payload>, i: nat): LedgerRow
    requires i < |ids| && i < |ps|
  {
    LedgerRow(Get(ps[i], "id"), ids[i])
  }

  /** The loop of `prepare` run over the first `m` zipped triples: points and
      rows are built for exactly the positions with a truthy payload id, in order. */
  function PrepareFirst(ids: seq<PointId>, ps: seq<Payload>, es: seq<Embedding>, m: nat)
    : (r: (seq<Point>, seq<LedgerRow>))
    requires m <= ZipLen(ids, ps, es)
    ensures var ks := KeptIndices(ps, m);
            && |r.0| == |ks| && |r.1| == |ks|
            && (forall k :: 0 <= k < |ks| ==> r.0[k] == PointAt(ids, ps, es, ks[k]))
            && (forall k :: 0 <= k < |ks| ==> r.1[k] == RowAt(ids, ps, ks[k]))
    decreases m
  {
    if m == 0 then ([], [])
    else
      var (points, rows) := PrepareFirst(ids, ps, es, m - 1);
      var i := m - 1;
      if HasItemId(ps[i]) then
        (points + [PointAt(ids, ps, es, i)], rows + [RowAt(ids, ps, i)])
      else
        (points, rows)
  }

  /** `prepare(point_ids, payloads, embeddings)`: `zip` truncates to the shortest
      input, records without a truthy id are dropped, each kept record becomes a
      point carrying its input id, embedding and payload unchanged, plus a ledger
      row pointing at that point. */
  function Prepare(ids: seq<PointId>, ps: seq<Payload>, es: seq<Embedding>)
    : (r: (seq<Point>, seq<LedgerRow>))
    ensures |r.0| == |r.1|
    ensures |r.0| <= |ids| && |r.0| <= |ps| && |r.0| <= |es|
    ensures var ks := KeptIndices(ps, ZipLen(ids, ps, es));
            && |r.0| == |ks|
            && forall k :: 0 <= k < |ks| ==>
                 && r.0[k] == Point(ids[ks[k]], es[ks[k]], ps[ks[k]])
                 && r.1[k] == LedgerRow(Get(ps[ks[k]], "id"), ids[ks[k]])
    ensures forall k :: 0 <= k < |r.1| ==>
              && r.1[k].pointId == r.0[k].id
              && r.1[k].itemId == Get(r.0[k].payload, "id")
              && Truthy(r.1[k].itemId)
  {
    PrepareFirst(ids, ps, es, ZipLen(ids, ps, es))
  }

  /** `upload(client, points)`: the client is always called; the wrapper returns
      True exactly when the upsert returns, and never lets an exception escape. */
  function Upload(points: seq<Point>, upsert: CallOutcome): (r: SinkCall<Point>)
    ensures r.sent == Some(points)
    ensures r.ok <==> upsert == Returned
  {
    SinkCall(upsert == Returned, Some(points))
  }

  /** `models.PayloadSchemaType` members the index creation can choose. */
  datatype SchemaType = BoolSchema | KeywordSchema | FloatSchema

  /** `QDRANT_PAYLOAD_FIELDS`, the list quoted in the ValueError message. */
  const PayloadFields: seq<string> := ["women", "category_type", "price"]

  /** The if/elif chain of `create_payload_index`; `None` is the ValueError branch. */
  function SchemaFor(fieldName: string): Option<SchemaType> {
    if fieldName == "women" then Some(BoolSchema)
    else if fieldName == "category_type" || fieldName == "url" then Some(KeywordSchema)
    else if fieldName == "price" then Some(FloatSchema)
    else None
  }

  /** Outcome of `create_payload_index`: the ValueError it raises for an unknown
      field, or the schema it asked for and the boolean it returned. */
  datatype IndexResult = InvalidField | Attempted(schema: SchemaType, ok: bool)

  /** `create_payload_index(client, field_name)`: the schema is chosen before the
      client is touched; an unknown field raises ValueError without any call; a
      client error after that point becomes False. */
  function CreatePayloadIndex(fieldName: string, create: CallOutcome): (r: IndexResult)
    ensures r.InvalidField? <==> fieldName !in {"women", "category_type", "url", "price"}
    ensures fieldName == "women" ==> r == Attempted(BoolSchema, create == Returned)
    ensures fieldName in {"category_type", "url"} ==> r == Attempted(KeywordSchema, create == Returned)
    ensures fieldName == "price" ==> r == Attempted(FloatSchema, create == Returned)
  {
    match SchemaFor(fieldName)
    case None => InvalidField
    case Some(schema) => Attempted(schema, create == Returned)
  }

  /** Every field the error message advertises is accepted, and "url" is accepted
      as well although the message does not list it. */
  lemma AdvertisedFieldsAccepted(create: CallOutcome)
    ensures forall f :: f in PayloadFields ==> CreatePayloadIndex(f, create).Attempted?
    ensures "url" !in PayloadFields && CreatePayloadIndex("url", create).Attempted?
  {
  }
}

=== FILE: records.dfy ===
/** Shared vocabulary of the ingestion pipeline: row dictionaries as they come
    out of the catalog query, Python truthiness of their values, ledger rows,
    and the boolean-valued result of a call to an external sink. */
module Records {

  datatype Option<T> = None | Some(value: T)

  /** A scalar cell of a row dictionary (a BigQuery row turned into a Python dict). */
  datatype Value = Null | Bool(b: bool) | Int(i: int) | Float(x: real) | Str(s: string)

  /** Python truthiness: None, False, 0, 0.0 and "" are falsy, everything else is truthy. */
  predicate Truthy(v: Value) {
    match v
    case Null => false
    case Bool(b) => b
    case Int(i) => i != 0
    case Float(x) => x != 0.0
    case Str(s) => s != ""
  }

  /** A payload is the row dictionary of one catalog item. */
  type Payload = map<string, Value>

  /** `dict.get(key)`: None when the key is absent. */
  function Get(p: Payload, key: string): Value {
    if key in p then p[key] else Null
  }

  /** The only validation `prepare` performs: `payload.get("id")` is truthy. */
  predicate HasItemId(p: Payload) {
    Truthy(Get(p, "id"))
  }

  /** Point ids are the string form of a fresh UUID4; the model treats them as opaque strings. */
  type PointId = string

  /** An embedding vector; the model never computes on its components. */
  type Embedding = seq<real>

  /** A ledger row `{"item_id": ..., "point_id": ...}`. */
  datatype LedgerRow = LedgerRow(itemId: Value, pointId: PointId)

  /** What an external client call did: it returned, or it raised. */
  datatype CallOutcome = Returned | Raised

  /** The boolean a sink wrapper returns, together with the request it sent to
      the client (`None` when the wrapper returned before calling the client). */
  datatype SinkCall<T> = SinkCall(ok: bool, sent: Option<seq<T>>)

  /** Length of `zip(xs, ys, zs)`: the shortest of the three. */
  function ZipLen<A, B, C>(xs: seq<A>, ys: seq<B>, zs: seq<C>): (m: nat)
    ensures m <= |xs| && m <= |ys| && m <= |zs|
    ensures m == |xs| || m == |ys| || m == |zs|
  {
    if |xs| <= |ys| && |xs| <= |zs| then |xs|
    else if |ys| <= |zs| then |ys|
    else |zs|
  }

  /** The positions below `m` whose payload carries a truthy id, in increasing
      order: the reference for which records `prepare` keeps. */
  function KeptIndices(ps: seq<Payload>, m: nat): (ks: seq<nat>)
    requires m <= |ps|
    ensures |ks| <= m
    ensures forall k :: 0 <= k < |ks| ==> ks[k] < m && HasItemId(ps[ks[k]])
    ensures forall i :: 0 <= i < m && HasItemId(ps[i]) ==> i in ks
    ensures forall k, l :: 0 <= k < l < |ks| ==> ks[k] < ks[l]
    ensures |ks| == m <==> forall i :: 0 <= i < m ==> HasItemId(ps[i])
    decreases m
  {
    if m == 0 then []
    else KeptIndices(ps, m - 1) + (if HasItemId(ps[m - 1]) then [m - 1] else [])
  }
}

=== FILE: sharding.dfy ===
/** The shard predicate of the candidate query,
    `MOD(FARM_FINGERPRINT(CAST(vinted_id AS STRING)), total_shards) = shard_index`.
    BigQuery's MOD truncates: the remainder takes the sign of the dividend, and
    FARM_FINGERPRINT is a signed 64-bit value. Dafny's `%` is Euclidean, so the
    truncated remainder is defined here explicitly. */
module Sharding {

  function Abs(x: int): nat {
    if x < 0 then -x else x
  }

  /** The quotient of a division of `x` by `k > 0` that truncates toward zero. */
  function TruncQuot(x: int, k: nat): int
    requires k > 0
  {
    if x >= 0 then x / k else -((-x) / k)
  }

  /** BigQuery `MOD(x, y)` for `y != 0`: the remainder of a division that
      truncates toward zero. */
  function TruncMod(x: int, y: int): (r: int)
    requires y != 0
    ensures Abs(r) < Abs(y)
    ensures x >= 0 ==> r >= 0
    ensures x < 0 ==> r <= 0
    ensures x == TruncQuot(x, Abs(y)) * Abs(y) + r
  {
    var k := Abs(y);
    if x >= 0 then
      x % k
    else
      var q := (-x) / k;
      assert -x == q * k + (-x) % k;
      assert -(q * k) == (-q) * k;
      -((-x) % k)
  }

  /** The shard predicate as the query writes it: `fp` is the row's fingerprint. */
  predicate InShard(fp: int, shardIndex: int, totalShards: int)
    requires totalShards != 0
  {
    TruncMod(fp, totalShards) == shardIndex
  }

  /** With the defaults `total_shards = 1, shard_index = 0` every fingerprint is kept. */
  lemma DefaultShardKeepsAll(fp: int)
    ensures InShard(fp, 0, 1)
  {
  }

  /** For a fixed shard count, two different shard indices never select the same row. */
  lemma ShardsDisjoint(fp: int, i: int, j: int, totalShards: int)
    requires totalShards != 0 && i != j
    ensures !(InShard(fp, i, totalShards) && InShard(fp, j, totalShards))
  {
  }

  /** Indices `0 .. N-1` reach a row exactly when its truncated remainder is not
      negative, which every non-negative fingerprint satisfies. */
  lemma {:induction false} CoveredIffNonNegativeRemainder(fp: int, totalShards: int)
    requires totalShards > 0
    ensures (exists i :: 0 <= i < totalShards && InShard(fp, i, totalShards))
            <==> TruncMod(fp, totalShards) >= 0
    ensures fp >= 0 ==> InShard(fp, TruncMod(fp, totalShards), totalShards)
                        && 0 <= TruncMod(fp, totalShards) < totalShards
  {
    var r := TruncMod(fp, totalShards);
    if r >= 0 {
      assert 0 <= r < totalShards && InShard(fp, r, totalShards);
    }
  }

  /** As written, a negative fingerprint whose remainder is not zero lies in no
      shard `0 .. N-1`: with two shards, a fingerprint of -1 gives MOD = -1. */
  lemma NegativeFingerprintInNoShard()
    ensures forall i :: 0 <= i < 2 ==> !InShard(-1, i, 2)
    ensures TruncMod(-1, 2) == -1
  {
  }

  /** The general form: every negative fingerprint that is not a multiple of the
      shard count is selected by none of the indices `0 .. N-1`. */
  lemma {:induction false} NegativeRemainderUncovered(fp: int, totalShards: int)
    requires totalShards > 0 && fp < 0 && fp % totalShards != 0
    ensures TruncMod(fp, totalShards) < 0
    ensures forall i :: 0 <= i < totalShards ==> !InShard(fp, i, totalShards)
  {
    var q := TruncQuot(fp, totalShards);
    if TruncMod(fp, totalShards) == 0 {
      assert fp == q * totalShards;
      MultipleHasNoRemainder(q, totalShards);
      assert false;
    }
  }

  lemma MultipleHasNoRemainder(q: int, k: nat)
    requires k > 0
    ensures (q * k) % k == 0
  {
    var m := q * k;
    var d, r := m / k, m % k;
    assert m == d * k + r;
    Distribute(q, d, k);
    SmallMultipleIsZero(q - d, k, r);
  }

  lemma Distribute(a: int, b: int, k: int)
    ensures (a - b) * k == a * k - b * k
  {
  }

  lemma SmallMultipleIsZero(e: int, k: nat, r: int)
    requires k > 0 && 0 <= r < k && e * k == r
    ensures r == 0
  {
  }

  /** The partition the sharding evidently intends: a remainder that is never
      negative, here Dafny's Euclidean `%`. */
  predicate InShardIntended(fp: int, shardIndex: int, totalShards: int)
    requires totalShards > 0
  {
    fp % totalShards == shardIndex
  }

  /** Under the intended predicate every fingerprint lies in exactly one shard
      `0 .. N-1`, and it agrees with the written one on non-negative fingerprints. */
  lemma IntendedShardsPartition(fp: int, totalShards: int)
    requires totalShards > 0
    ensures 0 <= fp % totalShards < totalShards
    ensures forall i :: 0 <= i < totalShards ==>
              (InShardIntended(fp, i, totalShards) <==> i == fp % totalShards)
    ensures fp >= 0 ==> forall i :: InShardIntended(fp, i, totalShards) <==> InShard(fp, i, totalShards)
  {
  }
}
